=== FILE: README.md ===
# Fractal path generators: Koch snowflake and Sierpinski triangle

This project models the recursive path generators in the page script
`script.js` of a small canvas fractal viewer, together with the level counter
that drives them.

The script draws by calling `moveTo` and `lineTo` on a canvas context. In the
model those calls are data. A `Cmd` is `MoveTo(p)` or `LineTo(p)`. Each
generator is a pure function that returns the commands in the order the script
issues them.

- `Geometry` (geometry.dfy) holds points with `real` coordinates. It also holds
  the exact arithmetic of the trisection points and midpoints.
- `Path` (path.dfy) gives command streams their meaning: the pen position they
  leave, the segments they stroke, when they form a polyline, and when they form
  one closed subpath.
- `KochCurve` (koch.dfy) models `koch` and the snowflake path of `drawKoch`.
  - The recursion is written once (`KochWith`) over a rule that says where an
    edge is cut and where its bump peaks.
  - `Koch` instantiates that rule with the script's exact-thirds cut. It takes
    the apex as a function parameter.
  - `Refine` is an independent, outside-in description: one generation applied
    to a whole path. The recursion is proved equal to it.
- `SierpinskiTriangle` (sierpinski.dfy) models `sierpinski` and the path of
  `drawSierpinski`.
  - `Leaves` lists the depth-0 triangles the recursion reaches.
  - `Render` outlines such a list.
  - The figure is proved to be the rendering of its leaves.
- `LevelCounter` (controller.dfy) models the increase and decrease handlers.
  The level after any sequence of clicks is proved equal to a closed form.

## Model

| member | source | states |
|---|---|---|
| Geometry.Trisect | script.js:86-90 | p1 and p3 cut pA -> pB into three equal steps, each a third of pB - pA |
| Geometry.TrisectUnique | script.js:86-90 | two points cut pA -> pB into three equal steps exactly when they are the trisection points |
| Geometry.MidHalfway | script.js:135 | `Mid` is the script's `mid`; the midpoint is reached from a, and reaches b, by the same step: half of b - a |
| Path.LineToChain | script.js:84 | a stream of line commands strokes one unbroken polyline from the pen's start to its last point, with one segment per command |
| Path.ClosedSubpathIsLoop | script.js:130-133 | a move followed by lines that return to the moved-to point strokes a polyline that starts and ends at that point |
| KochCurve.KochWith | script.js:82-104 | the recursion emits exactly 4^depth commands |
| KochCurve.KochWithChain | script.js:99-102 | a curve one level deeper is the four sub-curves in order, and each sub-curve ends where the next begins: pA -> p1 -> p2 -> p3 -> pB |
| KochCurve.KochWithLines | script.js:82-104 | every command is a line, so the curve never lifts the pen |
| KochCurve.KochWithLast | script.js:83-84 | the last command is the line to pB |
| KochCurve.KochWithRefine | script.js:82-104 | recursing inside out to depth d + 1 equals replacing every line of the depth-d curve by its bump |
| KochCurve.Koch | script.js:82-104 | the script's curve emits exactly 4^depth commands |
| KochCurve.KochDepthZero | script.js:83-84 | at depth 0 the curve is the single command LineTo(pB) |
| KochCurve.KochIsChain | script.js:82-104 | the curve is 4^depth commands, every one a line; drawn from any start it leaves the pen at pB; drawn from pA it strokes 4^depth segments chained from pA to pB |
| KochCurve.KochQuarters | script.js:86-102 | the curve one level deeper is the four sub-curves over pA, p1, p2, p3, pB with p1 and p3 the trisection points, chained end to start |
| KochCurve.KochRefine | script.js:82-104 | the depth d + 1 curve is the depth-d curve with every line replaced by a bump |
| KochCurve.KochKeepsVertices | script.js:99-102 | every vertex of the depth-d curve is still a vertex, at position 4i + 3, of the depth d + 1 curve |
| KochCurve.Snowflake | script.js:68-72 | the snowflake path is MoveTo(p1) followed by 3 * 4^level commands |
| KochCurve.SnowflakeClosed | script.js:68-72 | the snowflake is one closed subpath: after the move to p1, only lines, ending back at p1 |
| KochCurve.SnowflakeSides | script.js:69-71 | the sides come in the script's order: command 4^level is the line to p2 that ends side p1 -> p2, and command 2 * 4^level is the line to p3 that ends side p2 -> p3 |
| KochCurve.SnowflakeLoop | script.js:68-72 | drawn, the snowflake strokes 3 * 4^level segments forming one polyline from p1 back to p1 |
| KochCurve.SnowflakeRefine | script.js:68-72 | the snowflake one level up is the current snowflake with every line replaced by a bump |
| SierpinskiTriangle.Sierpinski | script.js:128-144 | the recursion emits exactly 4 * 3^depth commands |
| SierpinskiTriangle.Leaves | script.js:140-142 | the recursion reaches exactly 3^depth depth-0 triangles |
| SierpinskiTriangle.SierpinskiIsRender | script.js:128-144 | the figure is the outlines of its leaf triangles, in order |
| SierpinskiTriangle.OutlineClosed | script.js:130-133 | an outline (a move to a, lines to b, c and back to a) is one closed subpath that strokes exactly the edges a -> b, b -> c and c -> a |
| SierpinskiTriangle.SierpinskiDepthZero | script.js:129-133 | at depth 0 the figure is exactly the outline of p1, p2, p3, its only leaf |
| SierpinskiTriangle.FirstLeafAtCorner | script.js:140 | at every depth the first leaf keeps the vertex p1 and the figure starts with the move to p1 |
| SierpinskiTriangle.SierpinskiTriangles | script.js:129-133 | the figure is 3^depth blocks of four commands, and block i outlines leaf i as its own closed subpath |
| SierpinskiTriangle.CornersHalve | script.js:136-142 | `Corners` builds the midpoints and the three recursive triangles; in order they keep the parent's p1, p2 and p3 respectively, and each has both of its parent's edge vectors halved, which fixes (p1, m1, m3), (m1, p2, m2), (m3, m2, p3) |
| SierpinskiTriangle.LeavesHalved | script.js:135-142 | every leaf has the base's two edge vectors, each halved depth times |
| SierpinskiTriangle.LeafScale | script.js:135-142 | for every leaf (a, b, c), b - a = (p2 - p1) * Shrink(depth) and c - b = (p3 - p2) * Shrink(depth), where Shrink(depth) = 1 / 2^depth |
| Geometry.ShrinkInverse | script.js:135 | the factor Shrink(d), halved once per level, is positive and times 2^d gives 1 |
| SierpinskiTriangle.SierpinskiPath | script.js:117-118 | the triangle path is 4 * 3^level commands |
| SierpinskiTriangle.SierpinskiPathTriangles | script.js:117-118 | the triangle path is 3^level blocks of four commands; block i is a closed subpath outlining leaf i, whose edges a -> b and b -> c are the base's p1 -> p2 and p2 -> p3 times 1 / 2^level |
| LevelCounter.Step | script.js:30-40 | increase raises the level; decrease lowers it unless it is 0, where it stays; a non-negative level stays non-negative |
| LevelCounter.DecreaseUndoesIncrease | script.js:30-40 | decrease after increase restores the level |
| LevelCounter.IncreaseUndoesDecrease | script.js:30-40 | increase after decrease restores the level exactly when it was above 0 |
| LevelCounter.Run | script.js:30-40 | the level stays non-negative across any sequence of clicks |
| LevelCounter.RunLevel | script.js:30-40 | the level after any clicks is the larger of start + net count and the largest net count of a suffix of the clicks |
| LevelCounter.MaxSuffixNetIsMax | script.js:30-40 | the floor term of the closed form is the largest net count over the suffixes of the clicks: no suffix exceeds it and one reaches it |
| LevelCounter.RunNoFloor | script.js:30-40 | clicks for which the start level plus every prefix's net count stays non-negative, so that decrease never meets the floor, move the level by exactly their net count |
| LevelCounter.IncreasesCount | script.js:4 | from the start value 0, n increases give level n |

## Left out

- The Koch apex. Its value comes from `atan2`, `cos`, `sin` and `sqrt` (script.js:92-97). It is the parameter `apex(pA, pB, p1)`, and every theorem holds for any apex.
- The apex is the edge's `atan2` angle plus pi / 3, at the length of one third of the edge (script.js:92-97). Since the apex is a parameter, no theorem depends on that computation.
- `koch` emits only `lineTo(pB)` (script.js:84); pA is the pen's current position. `Path.Segments` recovers the stroked segments from the pen position.
- Floating point. Coordinates are `real`, so thirds and halves are exact; IEEE-754 rounding is not modelled.
- The base triangle layout (script.js:59-66, 108-115) uses `Math.sqrt(3)` and the canvas size. The three base vertices are parameters of `Snowflake` and `SierpinskiPath` instead.
- The DOM and canvas plumbing are not modelled. This covers `getElementById`, `getContext`, the resize handler, the fill toggle and fractal selector handlers, `updateLevelIndicator`, `clearRect`, and the `draw` dispatch (script.js:1-28, 42-55). It is I/O and UI.
- Stroke and fill styling (script.js:74-79, 120-125) is not modelled. It paints the finished path and does not change it.
- Non-integer or negative depths, on which the script would recurse forever, are not modelled. Depths are `nat`. This is justified by `LevelCounter.Run`: the level never goes below 0.
- LevelCounter.Step: the level is an unbounded `int`. The script's level is a double, which cannot pass 2^53 through clicks in practice.

=== FILE: controller.dfy ===
/**
 The level counter behind the "increase" and "decrease" buttons
 (script.js:4, 30-40): `level` starts at 0, increase adds one, decrease
 subtracts one unless the level is already 0.

 The level is a JavaScript number; it is modelled as an `int` together with
 the invariant `Valid`, which every click keeps, so that the generators can
 take it as a `nat`.
 */
module LevelCounter {

  /** The value `level` starts with. */
  const Init: int := 0

  /** The level is never negative. */
  predicate Valid(level: int) {
    level >= 0
  }

  datatype Click = Increase | Decrease

  /** The handler of one click. */
  function Step(level: int, c: Click): (r: int)
    ensures Valid(level) ==> Valid(r)
    ensures c.Increase? ==> r > level
    ensures c.Decrease? ==> r <= level && (r == level <==> level <= 0)
  {
    match c
    case Increase => level + 1
    case Decrease => if level > 0 then level - 1 else level
  }

  /** A decrease undoes an increase. */
  lemma DecreaseUndoesIncrease(level: int)
    requires Valid(level)
    ensures Step(Step(level, Increase), Decrease) == level
  {
  }

  /** An increase undoes a decrease exactly when the level was above 0. */
  lemma IncreaseUndoesDecrease(level: int)
    requires Valid(level)
    ensures Step(Step(level, Decrease), Increase) == level <==> level > 0
  {
  }

  /** The level after the clicks `cs`, in order. */
  function Run(level: int, cs: seq<Click>): (r: int)
    ensures Valid(level) ==> Valid(r)
    decreases |cs|
  {
    if |cs| == 0 then level else Step(Run(level, cs[..|cs| - 1]), cs[|cs| - 1])
  }

  /** How one click moves a counter without a floor. */
  function Delta(c: Click): int {
    match c
    case Increase => 1
    case Decrease => -1
  }

  /** The number of increases minus the number of decreases in `cs`. */
  function Net(cs: seq<Click>): int
    decreases |cs|
  {
    if |cs| == 0 then 0 else Net(cs[..|cs| - 1]) + Delta(cs[|cs| - 1])
  }

  /** The largest net count of any suffix of `cs`, the empty suffix included. */
  function MaxSuffixNet(cs: seq<Click>): (r: int)
    ensures r >= 0
    decreases |cs|
  {
    if |cs| == 0 then 0 else Max(MaxSuffixNet(cs[..|cs| - 1]) + Delta(cs[|cs| - 1]), 0)
  }

  function Max(a: int, b: int): int {
    if a >= b then a else b
  }

  /**
   The level after any clicks, in closed form: the start level plus the net
   count, unless the floor at 0 was hit, in which case the net count of the
   clicks after the last time the level stood at 0.
   */
  lemma {:induction false} RunLevel(level: int, cs: seq<Click>)
    requires Valid(level)
    ensures Run(level, cs) == Max(level + Net(cs), MaxSuffixNet(cs))
    decreases |cs|
  {
    if |cs| > 0 {
      RunLevel(level, cs[..|cs| - 1]);
    }
  }

  /** The net count of `cs` is the net count of a prefix plus that of the rest. */
  lemma {:induction false} NetSplit(cs: seq<Click>, k: nat)
    requires k <= |cs|
    ensures Net(cs) == Net(cs[..k]) + Net(cs[k..])
    decreases |cs|
  {
    if k < |cs| {
      var front := cs[..|cs| - 1];
      NetSplit(front, k);
      assert front[..k] == cs[..k];
      assert cs[k..][..|cs[k..]| - 1] == front[k..];
      assert cs[k..][|cs[k..]| - 1] == cs[|cs| - 1];
    } else {
      assert cs[..k] == cs;
      assert cs[k..] == [];
    }
  }

  /** `MaxSuffixNet` is the largest net count of a suffix: every suffix stays below it and one reaches it. */
  lemma {:induction false} MaxSuffixNetIsMax(cs: seq<Click>)
    ensures forall k :: 0 <= k <= |cs| ==> Net(cs[k..]) <= MaxSuffixNet(cs)
    ensures exists k :: 0 <= k <= |cs| && Net(cs[k..]) == MaxSuffixNet(cs)
    decreases |cs|
  {
    if |cs| == 0 {
      assert cs[0..] == [];
    } else {
      var front, last := cs[..|cs| - 1], cs[|cs| - 1];
      MaxSuffixNetIsMax(front);
      forall k | 0 <= k <= |cs| ensures Net(cs[k..]) <= MaxSuffixNet(cs) {
        SuffixNet(cs, k);
      }
      if MaxSuffixNet(front) + Delta(last) >= 0 {
        var k :| 0 <= k <= |front| && Net(front[k..]) == MaxSuffixNet(front);
        SuffixNet(cs, k);
      } else {
        assert cs[|cs|..] == [];
      }
    }
  }

  /** A suffix that starts before the last click is the matching suffix of the front, then that click. */
  lemma SuffixNet(cs: seq<Click>, k: nat)
    requires k <= |cs|
    ensures k < |cs| ==> Net(cs[k..]) == Net(cs[..|cs| - 1][k..]) + Delta(cs[|cs| - 1])
    ensures k == |cs| ==> Net(cs[k..]) == 0
  {
    if k < |cs| {
      assert cs[k..][..|cs[k..]| - 1] == cs[..|cs| - 1][k..];
      assert cs[k..][|cs[k..]| - 1] == cs[|cs| - 1];
    } else {
      assert cs[k..] == [];
    }
  }

  /**
   Clicks that never ask to go below 0, because the start level plus the net
   count of every prefix stays non-negative, move the level by exactly their
   net count.
   */
  lemma {:induction false} RunNoFloor(level: int, cs: seq<Click>)
    requires forall k :: 0 <= k <= |cs| ==> level + Net(cs[..k]) >= 0
    ensures Run(level, cs) == level + Net(cs)
  {
    assert cs[..0] == [];
    RunLevel(level, cs);
    MaxSuffixNetIsMax(cs);
    var k :| 0 <= k <= |cs| && Net(cs[k..]) == MaxSuffixNet(cs);
    NetSplit(cs, k);
  }

  /** From the start value, n increases reach level n. */
  lemma {:induction false} IncreasesCount(cs: seq<Click>)
    requires forall i :: 0 <= i < |cs| ==> cs[i].Increase?
    ensures Run(Init, cs) == |cs|
    decreases |cs|
  {
    if |cs| > 0 {
      IncreasesCount(cs[..|cs| - 1]);
    }
  }
}

=== FILE: geometry.dfy ===
/**
 Points and the exact real arithmetic the fractal generators use: vector
 subtraction, scaling, the trisection points of a Koch edge
 and the midpoint of a Sierpinski edge.

 Coordinates are `real`, so `/ 3` and `/ 2` are exact; the floating-point
 rounding of the browser is not modelled.
 */
module Geometry {

  /** A point (or a displacement vector) of the drawing plane. */
  datatype Point = Point(x: real, y: real)

  /** The displacement from `q` to `p`. */
  function Sub(p: Point, q: Point): Point {
    Point(p.x - q.x, p.y - q.y)
  }

  function Scale(v: Point, k: real): Point {
    Point(k * v.x, k * v.y)
  }

  /**
   The two trisection points of the edge pA -> pB, computed as the script does
   (one third of the displacement, then twice that third, both from pA).
   They cut the edge into three equal steps that lead from pA to pB.
   */
  function Trisect(pA: Point, pB: Point): (r: (Point, Point))
    ensures Sub(r.0, pA) == Sub(r.1, r.0) == Sub(pB, r.1)
    ensures Sub(r.0, pA) == Scale(Sub(pB, pA), 1.0 / 3.0)
  {
    var dx := (pB.x - pA.x) / 3.0;
    var dy := (pB.y - pA.y) / 3.0;
    (Point(pA.x + dx, pA.y + dy), Point(pA.x + 2.0 * dx, pA.y + 2.0 * dy))
  }

  /** Three equal steps from pA to pB are exactly the trisection points. */
  lemma TrisectUnique(pA: Point, pB: Point, q1: Point, q3: Point)
    ensures Sub(q1, pA) == Sub(q3, q1) == Sub(pB, q3) <==> (q1, q3) == Trisect(pA, pB)
  {
  }

  /** The midpoint of the edge a -> b, computed as the script's `mid` does. */
  function Mid(a: Point, b: Point): Point {
    Point((a.x + b.x) / 2.0, (a.y + b.y) / 2.0)
  }

  /** The same step, half of a -> b, leads from a to the midpoint and from it to b. */
  lemma MidHalfway(a: Point, b: Point)
    ensures Sub(Mid(a, b), a) == Sub(b, Mid(a, b)) == Scale(Sub(b, a), 0.5)
  {
  }

  /** Scaling twice multiplies the factors. */
  lemma ScaleScale(v: Point, j: real, k: real)
    ensures Scale(Scale(v, j), k) == Scale(v, j * k)
  {
  }

  /** `b` to the power `e`, for the command counts 4^d and 3^d. */
  function Pow(b: nat, e: nat): (r: nat)
    ensures b >= 1 ==> r >= 1
  {
    if e == 0 then 1 else b * Pow(b, e - 1)
  }

  /**
   `v` halved `d` times: one halving per Sierpinski level. This is the same
   halving as scaling by `Shrink(d)` (`HalvedIsShrink`), kept separately
   because it needs only linear arithmetic, which keeps the inductive proofs
   about the leaves cheap for the solver.
   */
  function Halved(v: Point, d: nat): Point {
    if d == 0 then v else Scale(Halved(v, d - 1), 0.5)
  }

  /** Halving commutes with itself: halving first and then d times is halving d + 1 times. */
  lemma {:induction false} HalvedShift(v: Point, d: nat)
    ensures Halved(Scale(v, 0.5), d) == Halved(v, d + 1)
    decreases d
  {
    if d > 0 {
      HalvedShift(v, d - 1);
    }
  }

  /** Halving d times is scaling by 1 / 2^d. */
  lemma {:induction false} HalvedIsShrink(v: Point, d: nat)
    ensures Halved(v, d) == Scale(v, Shrink(d))
    decreases d
  {
    if d > 0 {
      HalvedIsShrink(v, d - 1);
      ScaleScale(v, Shrink(d - 1), 0.5);
      assert Shrink(d - 1) * 0.5 == Shrink(d);
    }
  }

  /** The linear shrink factor 1 / 2^d of a depth-d Sierpinski leaf, halved once per level. */
  function Shrink(d: nat): real {
    if d == 0 then 1.0 else 0.5 * Shrink(d - 1)
  }

  /** `Shrink(d)` is the positive inverse of 2^d. */
  lemma {:induction false} ShrinkInverse(d: nat)
    ensures Shrink(d) > 0.0
    ensures Shrink(d) * (Pow(2, d) as real) == 1.0
    decreases d
  {
    if d > 0 {
      ShrinkInverse(d - 1);
      var k := Shrink(d - 1);
      var p := Pow(2, d - 1) as real;
      assert (0.5 * k) * (2.0 * p) == k * p;
    }
  }
}

=== FILE: koch.dfy ===
/**
 The Koch curve generator and the snowflake built from it (script.js:58-104).

 The recursion is stated once, in `KochWith`, for any rule that says where an
 edge is cut and where its bump peaks; every structural theorem is proved for
 all such rules. `Koch` is the script's generator: it cuts each edge at its
 exact thirds (`Trisect`) and takes the apex as a parameter, because the script
 computes it with `atan2`, `cos`, `sin` and `sqrt`.

 Lemmas relate a curve of depth `depth + 1` to curves of depth `depth`.
 */
module KochCurve {
  import opened Geometry
  import opened Path

  /** Where the bump over the middle third of pA -> pB peaks, given its first cut point p1. */
  type Apex = (Point, Point, Point) -> Point

  /** The two points at which an edge is cut. */
  type Split = (Point, Point) -> (Point, Point)

  /** How one edge is replaced by four: the cut points and the apex between them. */
  datatype Rule = Rule(split: Split, apex: Apex)

  /** The script's rule: cut at the exact thirds, peak wherever `apex` says. */
  function KochRule(apex: Apex): Rule {
    Rule(Trisect, apex)
  }

  /**
   The commands the recursion issues for the edge pA -> pB: at depth 0 one line
   to pB; otherwise the four depth - 1 curves over pA -> p1 -> p2 -> p3 -> pB.
   The pen is assumed to be at pA already, so no command names pA.
   */
  function KochWith(g: Rule, pA: Point, pB: Point, depth: nat): (r: seq<Cmd>)
    ensures |r| == Pow(4, depth)
    decreases depth
  {
    if depth == 0 then [LineTo(pB)]
    else
      var (p1, p3) := g.split(pA, pB);
      var p2 := g.apex(pA, pB, p1);
      KochWith(g, pA, p1, depth - 1) + KochWith(g, p1, p2, depth - 1) +
      KochWith(g, p2, p3, depth - 1) + KochWith(g, p3, pB, depth - 1)
  }

  /**
   The four sub-curves chain: the curve over pA -> pB is the curves over
   pA -> p1, p1 -> p2, p2 -> p3 and p3 -> pB, each of which leaves the pen
   exactly where the next one starts.
   */
  lemma KochWithChain(g: Rule, pA: Point, pB: Point, depth: nat, p1: Point, p2: Point, p3: Point)
    requires (p1, p3) == g.split(pA, pB) && p2 == g.apex(pA, pB, p1)
    ensures KochWith(g, pA, pB, depth + 1) ==
            KochWith(g, pA, p1, depth) + KochWith(g, p1, p2, depth) +
            KochWith(g, p2, p3, depth) + KochWith(g, p3, pB, depth)
    ensures EndPoint(pA, KochWith(g, pA, p1, depth)) == p1
    ensures EndPoint(p1, KochWith(g, p1, p2, depth)) == p2
    ensures EndPoint(p2, KochWith(g, p2, p3, depth)) == p3
    ensures EndPoint(p3, KochWith(g, p3, pB, depth)) == pB
  {
    KochWithEnd(g, pA, p1, depth, pA);
    KochWithEnd(g, p1, p2, depth, p1);
    KochWithEnd(g, p2, p3, depth, p2);
    KochWithEnd(g, p3, pB, depth, p3);
  }

  /** The curve only draws lines: it extends the current subpath and never lifts the pen. */
  lemma {:induction false} KochWithLines(g: Rule, pA: Point, pB: Point, depth: nat)
    ensures AllLineTo(KochWith(g, pA, pB, depth))
    decreases depth
  {
    if depth > 0 {
      var (p1, p3) := g.split(pA, pB);
      var p2 := g.apex(pA, pB, p1);
      KochWithLines(g, pA, p1, depth - 1);
      KochWithLines(g, p1, p2, depth - 1);
      KochWithLines(g, p2, p3, depth - 1);
      KochWithLines(g, p3, pB, depth - 1);
      AllLineTo4(KochWith(g, pA, p1, depth - 1), KochWith(g, p1, p2, depth - 1),
                 KochWith(g, p2, p3, depth - 1), KochWith(g, p3, pB, depth - 1));
    }
  }

  /** Four line paths in a row are a line path. */
  lemma AllLineTo4(a: seq<Cmd>, b: seq<Cmd>, c: seq<Cmd>, e: seq<Cmd>)
    requires AllLineTo(a) && AllLineTo(b) && AllLineTo(c) && AllLineTo(e)
    ensures AllLineTo(a + b + c + e)
  {
    AllLineToAppend(a, b);
    AllLineToAppend(a + b, c);
    AllLineToAppend(a + b + c, e);
  }

  /** The curve's last command is the line to pB. */
  lemma {:induction false} KochWithLast(g: Rule, pA: Point, pB: Point, depth: nat)
    ensures KochWith(g, pA, pB, depth)[|KochWith(g, pA, pB, depth)| - 1] == LineTo(pB)
    decreases depth
  {
    if depth > 0 {
      var (p1, p3) := g.split(pA, pB);
      var p2 := g.apex(pA, pB, p1);
      KochWithLast(g, p3, pB, depth - 1);
      LastOfAppend(KochWith(g, pA, p1, depth - 1) + KochWith(g, p1, p2, depth - 1) + KochWith(g, p2, p3, depth - 1),
                   KochWith(g, p3, pB, depth - 1));
    }
  }

  /** The last command of `front + e`, for a non-empty `e`, is the last command of `e`. */
  lemma LastOfAppend(front: seq<Cmd>, e: seq<Cmd>)
    requires |e| > 0
    ensures (front + e)[|front + e| - 1] == e[|e| - 1]
  {
  }

  /** Drawn from any pen position, the curve leaves the pen at pB. */
  lemma KochWithEnd(g: Rule, pA: Point, pB: Point, depth: nat, cur: Point)
    ensures EndPoint(cur, KochWith(g, pA, pB, depth)) == pB
  {
    KochWithLast(g, pA, pB, depth);
  }

  /** The four lines of one bump over cur -> q. */
  function Bump(g: Rule, cur: Point, q: Point): seq<Cmd> {
    var (p1, p3) := g.split(cur, q);
    [LineTo(p1), LineTo(g.apex(cur, q, p1)), LineTo(p3), LineTo(q)]
  }

  /** A bump is four lines ending at q. */
  lemma BumpShape(g: Rule, cur: Point, q: Point)
    ensures |Bump(g, cur, q)| == 4
    ensures AllLineTo(Bump(g, cur, q))
    ensures Bump(g, cur, q)[3] == LineTo(q)
  {
    var b := Bump(g, cur, q);
    assert AllLineTo(b[3..]) by { assert b[3..][1..] == []; }
    assert b[2..][1..] == b[3..];
    assert b[1..][1..] == b[2..];
  }

  /** A bump is the curve of depth 1. */
  lemma BumpIsKoch(g: Rule, cur: Point, q: Point)
    ensures Bump(g, cur, q) == KochWith(g, cur, q, 1)
  {
  }

  /**
   One more generation applied to any path: every line is replaced by the bump
   over it, moves are kept.
   */
  function Refine(g: Rule, cur: Point, cmds: seq<Cmd>): seq<Cmd>
    decreases |cmds|
  {
    if |cmds| == 0 then []
    else
      var head := match cmds[0]
        case MoveTo(q) => [MoveTo(q)]
        case LineTo(q) => Bump(g, cur, q);
      head + Refine(g, cmds[0].p, cmds[1..])
  }

  /** Refining `a` then `b` is refining `a`, then refining `b` from where `a` ends. */
  lemma {:induction false} RefineAppend(g: Rule, cur: Point, a: seq<Cmd>, b: seq<Cmd>)
    ensures Refine(g, cur, a + b) == Refine(g, cur, a) + Refine(g, EndPoint(cur, a), b)
    decreases |a|
  {
    if |a| == 0 {
      assert a + b == b;
    } else {
      assert (a + b)[0] == a[0];
      assert (a + b)[1..] == a[1..] + b;
      RefineAppend(g, a[0].p, a[1..], b);
      if |a| > 1 {
        assert EndPoint(a[0].p, a[1..]) == EndPoint(cur, a);
      }
    }
  }

  /** `RefineAppend` with the pen position between the two parts named. */
  lemma RefineTwo(g: Rule, cur: Point, mid: Point, a: seq<Cmd>, b: seq<Cmd>)
    requires EndPoint(cur, a) == mid
    ensures Refine(g, cur, a + b) == Refine(g, cur, a) + Refine(g, mid, b)
  {
    RefineAppend(g, cur, a, b);
  }

  /** Four pieces that end at p1, p2 and p3 refine piece by piece. */
  lemma RefineQuarters(g: Rule, pA: Point, p1: Point, p2: Point, p3: Point,
                       a: seq<Cmd>, b: seq<Cmd>, c: seq<Cmd>, e: seq<Cmd>)
    requires EndPoint(pA, a) == p1 && EndPoint(p1, b) == p2 && EndPoint(p2, c) == p3
    ensures Refine(g, pA, a + b + c + e) ==
            Refine(g, pA, a) + Refine(g, p1, b) + Refine(g, p2, c) + Refine(g, p3, e)
  {
    RefineTwo(g, pA, p1, a, b);
    EndPointAppend(pA, a, b);
    RefineTwo(g, pA, p2, a + b, c);
    EndPointAppend(pA, a + b, c);
    RefineTwo(g, pA, p3, a + b + c, e);
  }

  /** Refining a line path multiplies its length by four and keeps where it ends. */
  lemma {:induction false} RefineShape(g: Rule, cur: Point, cmds: seq<Cmd>)
    requires AllLineTo(cmds)
    ensures |Refine(g, cur, cmds)| == 4 * |cmds|
    ensures AllLineTo(Refine(g, cur, cmds))
    ensures EndPoint(cur, Refine(g, cur, cmds)) == EndPoint(cur, cmds)
    decreases |cmds|
  {
    if |cmds| > 0 {
      var q := cmds[0].p;
      RefineShape(g, q, cmds[1..]);
      var head := Bump(g, cur, q);
      var rest := Refine(g, q, cmds[1..]);
      assert Refine(g, cur, cmds) == head + rest;
      BumpShape(g, cur, q);
      AllLineToAppend(head, rest);
      EndPointAppend(cur, head, rest);
      if |cmds| > 1 {
        assert EndPoint(q, cmds[1..]) == EndPoint(cur, cmds);
      }
    }
  }

  /**
   Recursing inside out equals refining outside in: the curve of depth d + 1 is
   the curve of depth d with every one of its lines replaced by a bump.
   */
  lemma {:induction false} KochWithRefine(g: Rule, pA: Point, pB: Point, depth: nat)
    ensures KochWith(g, pA, pB, depth + 1) == Refine(g, pA, KochWith(g, pA, pB, depth))
    decreases depth, 1
  {
    if depth == 0 {
      BumpIsKoch(g, pA, pB);
      assert Refine(g, pB, []) == [];
    } else {
      var (p1, p3) := g.split(pA, pB);
      KochWithRefineStep(g, pA, pB, depth - 1, p1, g.apex(pA, pB, p1), p3);
    }
  }

  /** The inductive step of `KochWithRefine`. */
  lemma {:induction false} KochWithRefineStep(g: Rule, pA: Point, pB: Point, depth: nat, p1: Point, p2: Point, p3: Point)
    requires (p1, p3) == g.split(pA, pB) && p2 == g.apex(pA, pB, p1)
    ensures KochWith(g, pA, pB, depth + 2) == Refine(g, pA, KochWith(g, pA, pB, depth + 1))
    decreases depth + 1, 0
  {
    KochWithRefine(g, pA, p1, depth);
    KochWithRefine(g, p1, p2, depth);
    KochWithRefine(g, p2, p3, depth);
    KochWithRefine(g, p3, pB, depth);
    KochWithChain(g, pA, pB, depth, p1, p2, p3);
    RefineQuarters(g, pA, p1, p2, p3,
      KochWith(g, pA, p1, depth), KochWith(g, p1, p2, depth),
      KochWith(g, p2, p3, depth), KochWith(g, p3, pB, depth));
  }

  /** In a refined line path, every fourth command is the line it replaced. */
  lemma {:induction false} RefineKeepsVertices(g: Rule, cur: Point, cmds: seq<Cmd>)
    requires AllLineTo(cmds)
    ensures |Refine(g, cur, cmds)| == 4 * |cmds|
    ensures forall i :: 0 <= i < |cmds| ==> Refine(g, cur, cmds)[4 * i + 3] == cmds[i]
    decreases |cmds|
  {
    RefineShape(g, cur, cmds);
    if |cmds| > 0 {
      var q := cmds[0].p;
      RefineKeepsVertices(g, q, cmds[1..]);
      var head := Bump(g, cur, q);
      var rest := Refine(g, q, cmds[1..]);
      assert Refine(g, cur, cmds) == head + rest;
      BumpShape(g, cur, q);
      forall i | 0 <= i < |cmds| ensures Refine(g, cur, cmds)[4 * i + 3] == cmds[i] {
        if i == 0 {
          assert (head + rest)[3] == head[3];
        } else {
          assert (head + rest)[4 * i + 3] == rest[4 * (i - 1) + 3];
          assert cmds[1..][i - 1] == cmds[i];
        }
      }
    }
  }

  /** The script's `koch(pA, pB, depth)`: the recursion with the edge cut at its exact thirds. */
  function Koch(apex: Apex, pA: Point, pB: Point, depth: nat): (r: seq<Cmd>)
    ensures |r| == Pow(4, depth)
  {
    KochWith(KochRule(apex), pA, pB, depth)
  }

  /** At depth 0 the curve is the single line to pB. */
  lemma KochDepthZero(apex: Apex, pA: Point, pB: Point)
    ensures Koch(apex, pA, pB, 0) == [LineTo(pB)]
  {
  }

  /**
   The curve is 4^depth line commands that leave the pen at pB from any start;
   drawn from pA they stroke an unbroken polyline from pA to pB.
   */
  lemma KochIsChain(apex: Apex, pA: Point, pB: Point, depth: nat, cur: Point)
    ensures AllLineTo(Koch(apex, pA, pB, depth))
    ensures forall i :: 0 <= i < Pow(4, depth) ==> Koch(apex, pA, pB, depth)[i].LineTo?
    ensures EndPoint(cur, Koch(apex, pA, pB, depth)) == pB
    ensures |Segments(pA, Koch(apex, pA, pB, depth))| == Pow(4, depth)
    ensures IsChain(Segments(pA, Koch(apex, pA, pB, depth)), pA, pB)
  {
    KochWithLines(KochRule(apex), pA, pB, depth);
    AllLineToIndex(Koch(apex, pA, pB, depth));
    KochWithEnd(KochRule(apex), pA, pB, depth, cur);
    KochWithEnd(KochRule(apex), pA, pB, depth, pA);
    LineToChain(pA, Koch(apex, pA, pB, depth));
  }

  /**
   The four recursive calls chain pA -> p1 -> p2 -> p3 -> pB, where p1 and p3
   are the trisection points and p2 the apex over them: the curve is their
   concatenation and each ends where the next begins.
   */
  lemma KochQuarters(apex: Apex, pA: Point, pB: Point, depth: nat)
    ensures var (p1, p3) := Trisect(pA, pB);
            var p2 := apex(pA, pB, p1);
            && Koch(apex, pA, pB, depth + 1) ==
               Koch(apex, pA, p1, depth) + Koch(apex, p1, p2, depth) +
               Koch(apex, p2, p3, depth) + Koch(apex, p3, pB, depth)
            && EndPoint(pA, Koch(apex, pA, p1, depth)) == p1
            && EndPoint(p1, Koch(apex, p1, p2, depth)) == p2
            && EndPoint(p2, Koch(apex, p2, p3, depth)) == p3
            && EndPoint(p3, Koch(apex, p3, pB, depth)) == pB
  {
    var (p1, p3) := Trisect(pA, pB);
    KochWithChain(KochRule(apex), pA, pB, depth, p1, apex(pA, pB, p1), p3);
  }

  /** The curve of depth d + 1 is the curve of depth d with each line replaced by its bump. */
  lemma KochRefine(apex: Apex, pA: Point, pB: Point, depth: nat)
    ensures Koch(apex, pA, pB, depth + 1) == Refine(KochRule(apex), pA, Koch(apex, pA, pB, depth))
  {
    KochWithRefine(KochRule(apex), pA, pB, depth);
  }

  /** Every vertex of the depth-d curve stays a vertex of the depth d + 1 curve. */
  lemma KochKeepsVertices(apex: Apex, pA: Point, pB: Point, depth: nat)
    ensures forall i :: 0 <= i < Pow(4, depth) ==>
              Koch(apex, pA, pB, depth + 1)[4 * i + 3] == Koch(apex, pA, pB, depth)[i]
  {
    KochRefine(apex, pA, pB, depth);
    KochWithLines(KochRule(apex), pA, pB, depth);
    RefineKeepsVertices(KochRule(apex), pA, Koch(apex, pA, pB, depth));
  }
  /**
   The script's `drawKoch` path (script.js:68-72): a move to p1, then the
   curves over the sides p1 -> p2, p2 -> p3 and p3 -> p1 of the base triangle.
   */
  function Snowflake(apex: Apex, p1: Point, p2: Point, p3: Point, level: nat): (r: seq<Cmd>)
    ensures |r| == 1 + 3 * Pow(4, level)
    ensures r[0] == MoveTo(p1)
  {
    [MoveTo(p1)] + (Koch(apex, p1, p2, level) + Koch(apex, p2, p3, level) + Koch(apex, p3, p1, level))
  }

  /** The snowflake is one closed subpath: after the move, 3 * 4^level lines that return to p1. */
  lemma SnowflakeClosed(apex: Apex, p1: Point, p2: Point, p3: Point, level: nat)
    ensures IsClosedSubpath(Snowflake(apex, p1, p2, p3, level))
  {
    var a, b, c := Koch(apex, p1, p2, level), Koch(apex, p2, p3, level), Koch(apex, p3, p1, level);
    KochIsChain(apex, p1, p2, level, p1);
    KochIsChain(apex, p2, p3, level, p2);
    KochIsChain(apex, p3, p1, level, p3);
    SidesLines(p1, a, b, c);
    MoveThenLinesClosed(p1, a + b + c);
  }

  /** Three line paths in a row, the last of which returns to p1, form a line path back to p1. */
  lemma SidesLines(p1: Point, a: seq<Cmd>, b: seq<Cmd>, c: seq<Cmd>)
    requires AllLineTo(a) && AllLineTo(b) && AllLineTo(c) && |c| > 0
    requires EndPoint(p1, c) == p1
    ensures AllLineTo(a + b + c) && EndPoint(p1, a + b + c) == p1
  {
    AllLineToAppend(a, b);
    AllLineToAppend(a + b, c);
    EndPointAppend(p1, a + b, c);
  }

  /**
   The snowflake draws the sides in the script's order: the line ending the
   first side, p1 -> p2, is command 4^level, and the line ending the second
   side, p2 -> p3, is command 2 * 4^level; the third side ends back at p1.
   */
  lemma SnowflakeSides(apex: Apex, p1: Point, p2: Point, p3: Point, level: nat)
    ensures Snowflake(apex, p1, p2, p3, level)[Pow(4, level)] == LineTo(p2)
    ensures Snowflake(apex, p1, p2, p3, level)[2 * Pow(4, level)] == LineTo(p3)
  {
    var g := KochRule(apex);
    var a, b, c := KochWith(g, p1, p2, level), KochWith(g, p2, p3, level), KochWith(g, p3, p1, level);
    KochWithLast(g, p1, p2, level);
    KochWithLast(g, p2, p3, level);
    ThirdsIndex(MoveTo(p1), a, b, c, Pow(4, level));
    assert Snowflake(apex, p1, p2, p3, level) == [MoveTo(p1)] + (a + b + c);
  }

  /** In `[m] + (a + b + c)` with |a| = |b| = n, position n holds the last of `a` and 2n the last of `b`. */
  lemma ThirdsIndex(m: Cmd, a: seq<Cmd>, b: seq<Cmd>, c: seq<Cmd>, n: nat)
    requires |a| == n && |b| == n && n > 0
    ensures ([m] + (a + b + c))[n] == a[n - 1]
    ensures ([m] + (a + b + c))[2 * n] == b[n - 1]
  {
    assert ([m] + (a + b + c))[n] == (a + b + c)[n - 1];
    assert ([m] + (a + b + c))[2 * n] == (a + b + c)[2 * n - 1];
  }

  /** A move to p1 followed by lines that return to p1 is a closed subpath. */
  lemma MoveThenLinesClosed(p1: Point, t: seq<Cmd>)
    requires AllLineTo(t) && EndPoint(p1, t) == p1
    ensures IsClosedSubpath([MoveTo(p1)] + t)
  {
  }

  /**
   Drawn, the snowflake strokes 3 * 4^level segments forming one polyline that
   starts and ends at p1.
   */
  lemma SnowflakeLoop(apex: Apex, p1: Point, p2: Point, p3: Point, level: nat, cur: Point)
    ensures |Segments(cur, Snowflake(apex, p1, p2, p3, level))| == 3 * Pow(4, level)
    ensures IsChain(Segments(cur, Snowflake(apex, p1, p2, p3, level)), p1, p1)
  {
    SnowflakeClosed(apex, p1, p2, p3, level);
    ClosedSubpathIsLoop(cur, Snowflake(apex, p1, p2, p3, level));
  }

  /** Raising the level refines every line of the snowflake into a bump. */
  lemma SnowflakeRefine(apex: Apex, p1: Point, p2: Point, p3: Point, level: nat, cur: Point)
    ensures Snowflake(apex, p1, p2, p3, level + 1) ==
            Refine(KochRule(apex), cur, Snowflake(apex, p1, p2, p3, level))
  {
    var g := KochRule(apex);
    var a, b, c := Koch(apex, p1, p2, level), Koch(apex, p2, p3, level), Koch(apex, p3, p1, level);
    KochIsChain(apex, p1, p2, level, p1);
    KochIsChain(apex, p2, p3, level, p2);
    KochRefine(apex, p1, p2, level);
    KochRefine(apex, p2, p3, level);
    KochRefine(apex, p3, p1, level);
    RefineMove(g, cur, p1, a + b + c);
    RefineThree(g, p1, p2, p3, a, b, c);
  }

  /** A move is kept, and the refinement after it starts from the point moved to. */
  lemma RefineMove(g: Rule, cur: Point, p: Point, t: seq<Cmd>)
    ensures Refine(g, cur, [MoveTo(p)] + t) == [MoveTo(p)] + Refine(g, p, t)
  {
  }

  /** Three pieces that end at p2 and p3 refine piece by piece. */
  lemma RefineThree(g: Rule, p1: Point, p2: Point, p3: Point, a: seq<Cmd>, b: seq<Cmd>, c: seq<Cmd>)
    requires EndPoint(p1, a) == p2 && EndPoint(p2, b) == p3
    ensures Refine(g, p1, a + b + c) == Refine(g, p1, a) + Refine(g, p2, b) + Refine(g, p3, c)
  {
    RefineTwo(g, p1, p2, a, b);
    EndPointAppend(p1, a, b);
    RefineTwo(g, p1, p3, a + b, c);
  }
}

=== FILE: path.dfy ===
/**
 Canvas path commands as data. A generator no longer calls `moveTo` and
 `lineTo` on a drawing context; it returns the commands in order, and this
 module says what such a command stream draws: the pen position it leaves,
 the straight segments it strokes, and when it is one closed loop.
 */
module Path {
  import opened Geometry

  /** One path command: lift the pen to a point, or draw a straight line to it. */
  datatype Cmd = MoveTo(p: Point) | LineTo(p: Point)

  /** A stroked straight segment. */
  datatype Segment = Segment(from: Point, to: Point)

  /** Only line commands: the stream extends the current subpath and never breaks it. */
  predicate AllLineTo(cmds: seq<Cmd>)
    decreases |cmds|
  {
    |cmds| == 0 || (cmds[0].LineTo? && AllLineTo(cmds[1..]))
  }

  /** `AllLineTo` says of every position that it holds a line. */
  lemma {:induction false} AllLineToIndex(cmds: seq<Cmd>)
    ensures AllLineTo(cmds) <==> forall i :: 0 <= i < |cmds| ==> cmds[i].LineTo?
    decreases |cmds|
  {
    if |cmds| > 0 {
      AllLineToIndex(cmds[1..]);
      if forall i :: 0 <= i < |cmds| ==> cmds[i].LineTo? {
        forall i | 0 <= i < |cmds[1..]| ensures cmds[1..][i].LineTo? {
          assert cmds[1..][i] == cmds[i + 1];
        }
      }
      if AllLineTo(cmds) {
        forall i | 0 <= i < |cmds| ensures cmds[i].LineTo? {
          if i > 0 { assert cmds[i] == cmds[1..][i - 1]; }
        }
      }
    }
  }

  /** The pen position after `cmds`, starting at `cur`: both commands move the pen. */
  function EndPoint(cur: Point, cmds: seq<Cmd>): Point {
    if |cmds| == 0 then cur else cmds[|cmds| - 1].p
  }

  /** The segments that `cmds` strokes when the pen starts at `cur`. */
  function Segments(cur: Point, cmds: seq<Cmd>): (r: seq<Segment>)
    ensures |r| <= |cmds|
    ensures AllLineTo(cmds) ==> |r| == |cmds|
    decreases |cmds|
  {
    if |cmds| == 0 then []
    else
      match cmds[0]
      case MoveTo(q) => Segments(q, cmds[1..])
      case LineTo(q) => [Segment(cur, q)] + Segments(q, cmds[1..])
  }

  /** `segs` is an unbroken polyline from `from` to `to` (empty when they coincide). */
  predicate IsChain(segs: seq<Segment>, from: Point, to: Point) {
    if |segs| == 0 then from == to
    else
      && segs[0].from == from
      && segs[|segs| - 1].to == to
      && forall i :: 0 <= i < |segs| - 1 ==> segs[i].to == segs[i + 1].from
  }

  /**
   One subpath that starts with a move and returns, by lines only, to where it
   started. "Closed" here means only that the path comes back to its first
   point: the script issues no `closePath`, so the canvas draws no line join
   there, and `fill` closes the subpath implicitly.
   */
  predicate IsClosedSubpath(cmds: seq<Cmd>) {
    && |cmds| >= 1
    && cmds[0].MoveTo?
    && AllLineTo(cmds[1..])
    && EndPoint(cmds[0].p, cmds[1..]) == cmds[0].p
  }

  /** A concatenation is a line path exactly when both parts are. */
  lemma {:induction false} AllLineToAppend(a: seq<Cmd>, b: seq<Cmd>)
    ensures AllLineTo(a + b) <==> AllLineTo(a) && AllLineTo(b)
    decreases |a|
  {
    if |a| == 0 {
      assert a + b == b;
    } else {
      assert (a + b)[0] == a[0];
      assert (a + b)[1..] == a[1..] + b;
      AllLineToAppend(a[1..], b);
    }
  }

  /** After `a + b` the pen stands where `b` leaves it, unless `b` is empty. */
  lemma EndPointAppend(cur: Point, a: seq<Cmd>, b: seq<Cmd>)
    ensures EndPoint(cur, a + b) == EndPoint(EndPoint(cur, a), b)
  {
  }

  /** A stream of line commands strokes one unbroken polyline, one segment per command. */
  lemma {:induction false} LineToChain(cur: Point, cmds: seq<Cmd>)
    requires AllLineTo(cmds)
    ensures |Segments(cur, cmds)| == |cmds|
    ensures IsChain(Segments(cur, cmds), cur, EndPoint(cur, cmds))
    decreases |cmds|
  {
    if |cmds| > 0 {
      var q := cmds[0].p;
      LineToChain(q, cmds[1..]);
      var rest := Segments(q, cmds[1..]);
      assert Segments(cur, cmds) == [Segment(cur, q)] + rest;
      if |cmds| > 1 {
        assert EndPoint(q, cmds[1..]) == EndPoint(cur, cmds);
      }
    }
  }

  /** A closed subpath strokes a polyline that returns to its first point. */
  lemma ClosedSubpathIsLoop(cur: Point, cmds: seq<Cmd>)
    requires IsClosedSubpath(cmds)
    ensures IsChain(Segments(cur, cmds), cmds[0].p, cmds[0].p)
    ensures |Segments(cur, cmds)| == |cmds| - 1
  {
    assert Segments(cur, cmds) == Segments(cmds[0].p, cmds[1..]);
    LineToChain(cmds[0].p, cmds[1..]);
  }
}

=== FILE: sierpinski.dfy ===
/**
 The Sierpinski triangle generator (script.js:106-144).

 `Sierpinski` returns the commands the script's `sierpinski` issues: at depth
 0 the outline of its triangle as one closed subpath, otherwise the three
 depth - 1 figures in the corner triangles cut off by the edge midpoints.
 `Leaves` lists the depth-0 triangles the recursion reaches, in drawing order,
 and `Render` outlines a list of triangles; the figure is the rendering of its
 leaves.
 */
module SierpinskiTriangle {
  import opened Geometry
  import opened Path

  datatype Triangle = Triangle(a: Point, b: Point, c: Point)

  /** The outline of a triangle as one closed subpath: move to a, lines to b, c and back to a. */
  function Outline(t: Triangle): (r: seq<Cmd>)
    ensures |r| == 4
  {
    [MoveTo(t.a), LineTo(t.b), LineTo(t.c), LineTo(t.a)]
  }

  /** The three corner triangles of `t`, in the order the script recurses into them. */
  function Corners(t: Triangle): (r: (Triangle, Triangle, Triangle)) {
    var m1 := Mid(t.a, t.b);
    var m2 := Mid(t.b, t.c);
    var m3 := Mid(t.c, t.a);
    (Triangle(t.a, m1, m3), Triangle(m1, t.b, m2), Triangle(m3, m2, t.c))
  }

  /** The script's `sierpinski(p1, p2, p3, depth)`. */
  function Sierpinski(t: Triangle, depth: nat): (r: seq<Cmd>)
    ensures |r| == 4 * Pow(3, depth)
    decreases depth
  {
    if depth == 0 then Outline(t)
    else
      var (t1, t2, t3) := Corners(t);
      Sierpinski(t1, depth - 1) + Sierpinski(t2, depth - 1) + Sierpinski(t3, depth - 1)
  }

  /** The triangles the recursion outlines, in drawing order. */
  function Leaves(t: Triangle, depth: nat): (r: seq<Triangle>)
    ensures |r| == Pow(3, depth)
    decreases depth
  {
    if depth == 0 then [t]
    else
      var (t1, t2, t3) := Corners(t);
      Leaves(t1, depth - 1) + Leaves(t2, depth - 1) + Leaves(t3, depth - 1)
  }

  /** At depth 0 the figure is the outline of the given triangle, which is its only leaf. */
  lemma SierpinskiDepthZero(t: Triangle)
    ensures Sierpinski(t, 0) == Outline(t)
    ensures Leaves(t, 0) == [t]
  {
  }

  /**
   The figure is anchored at the given triangle: its first leaf keeps the
   vertex p1, and its first command is the move to p1.
   */
  lemma {:induction false} FirstLeafAtCorner(t: Triangle, depth: nat)
    ensures Leaves(t, depth)[0].a == t.a
    ensures Sierpinski(t, depth)[0] == MoveTo(t.a)
    decreases depth
  {
    if depth > 0 {
      var (t1, t2, t3) := Corners(t);
      var d: nat := depth - 1;
      SierpinskiStep(t, d, t1, t2, t3);
      FirstLeafAtCorner(t1, d);
      CornersHalve(t);
      assert (Leaves(t1, d) + Leaves(t2, d) + Leaves(t3, d))[0] == Leaves(t1, d)[0];
      assert (Sierpinski(t1, d) + Sierpinski(t2, d) + Sierpinski(t3, d))[0] == Sierpinski(t1, d)[0];
    }
  }

  /** The outlines of `ts`, one after another. */
  function Render(ts: seq<Triangle>): (r: seq<Cmd>)
    decreases |ts|
  {
    if |ts| == 0 then [] else Outline(ts[0]) + Render(ts[1..])
  }

  /** Rendering a concatenation renders each part. */
  lemma {:induction false} RenderAppend(a: seq<Triangle>, b: seq<Triangle>)
    ensures Render(a + b) == Render(a) + Render(b)
    decreases |a|
  {
    if |a| == 0 {
      assert a + b == b;
    } else {
      assert (a + b)[0] == a[0];
      assert (a + b)[1..] == a[1..] + b;
      RenderAppend(a[1..], b);
    }
  }

  /** Rendering three parts in a row renders each part. */
  lemma RenderAppend3(a: seq<Triangle>, b: seq<Triangle>, c: seq<Triangle>)
    ensures Render(a + b + c) == Render(a) + Render(b) + Render(c)
  {
    RenderAppend(a, b);
    RenderAppend(a + b, c);
  }

  /** One level of the recursion: the figure and its leaves split into the three corners. */
  lemma SierpinskiStep(t: Triangle, depth: nat, t1: Triangle, t2: Triangle, t3: Triangle)
    requires (t1, t2, t3) == Corners(t)
    ensures Sierpinski(t, depth + 1) == Sierpinski(t1, depth) + Sierpinski(t2, depth) + Sierpinski(t3, depth)
    ensures Leaves(t, depth + 1) == Leaves(t1, depth) + Leaves(t2, depth) + Leaves(t3, depth)
  {
  }

  /** The figure is the outlines of its leaves, drawn in order. */
  lemma {:induction false} SierpinskiIsRender(t: Triangle, depth: nat)
    ensures Sierpinski(t, depth) == Render(Leaves(t, depth))
    decreases depth, 1
  {
    if depth == 0 {
      assert Render([t]) == Outline(t) + Render([]);
    } else {
      var (t1, t2, t3) := Corners(t);
      SierpinskiIsRenderStep(t, depth - 1, t1, t2, t3);
    }
  }

  /** The inductive step of `SierpinskiIsRender`. */
  lemma {:induction false} SierpinskiIsRenderStep(t: Triangle, depth: nat, t1: Triangle, t2: Triangle, t3: Triangle)
    requires (t1, t2, t3) == Corners(t)
    ensures Sierpinski(t, depth + 1) == Render(Leaves(t, depth + 1))
    decreases depth + 1, 0
  {
    SierpinskiStep(t, depth, t1, t2, t3);
    SierpinskiIsRender(t1, depth);
    SierpinskiIsRender(t2, depth);
    SierpinskiIsRender(t3, depth);
    RenderAppend3(Leaves(t1, depth), Leaves(t2, depth), Leaves(t3, depth));
  }

  /** Block i of four commands in a rendering is the outline of triangle i. */
  lemma {:induction false} RenderBlocks(ts: seq<Triangle>)
    ensures |Render(ts)| == 4 * |ts|
    ensures forall i :: 0 <= i < |ts| ==> Render(ts)[4 * i .. 4 * i + 4] == Outline(ts[i])
    decreases |ts|
  {
    if |ts| > 0 {
      RenderBlocks(ts[1..]);
      var head, rest := Outline(ts[0]), Render(ts[1..]);
      assert Render(ts) == head + rest;
      forall i | 0 <= i < |ts| ensures Render(ts)[4 * i .. 4 * i + 4] == Outline(ts[i]) {
        if i == 0 {
          assert (head + rest)[..4] == head;
        } else {
          assert (head + rest)[4 * i .. 4 * i + 4] == rest[4 * (i - 1) .. 4 * (i - 1) + 4];
          assert ts[1..][i - 1] == ts[i];
        }
      }
    }
  }

  /** An outline is a closed subpath stroking the triangle's three edges. */
  lemma OutlineClosed(t: Triangle, cur: Point)
    ensures IsClosedSubpath(Outline(t))
    ensures Segments(cur, Outline(t)) == [Segment(t.a, t.b), Segment(t.b, t.c), Segment(t.c, t.a)]
  {
    var o := Outline(t);
    var l1, l2, l3 := o[1..], [LineTo(t.c), LineTo(t.a)], [LineTo(t.a)];
    assert l1[1..] == l2 && l2[1..] == l3 && l3[1..] == [];
    assert AllLineTo(l3);
    assert AllLineTo(l2);
    assert AllLineTo(l1);
    assert Segments(t.c, l3) == [Segment(t.c, t.a)] + Segments(t.a, []);
    assert Segments(t.b, l2) == [Segment(t.b, t.c)] + Segments(t.c, l3);
    assert Segments(t.a, l1) == [Segment(t.a, t.b)] + Segments(t.b, l2);
    assert Segments(cur, o) == Segments(t.a, l1);
  }

  /**
   The figure is 3^depth closed triangles: its commands fall into blocks of
   four, and block i outlines leaf i as its own closed subpath.
   */
  lemma {:induction false} SierpinskiTriangles(t: Triangle, depth: nat)
    ensures forall i :: 0 <= i < Pow(3, depth) ==>
              && Sierpinski(t, depth)[4 * i .. 4 * i + 4] == Outline(Leaves(t, depth)[i])
              && IsClosedSubpath(Sierpinski(t, depth)[4 * i .. 4 * i + 4])
  {
    SierpinskiIsRender(t, depth);
    RenderBlocks(Leaves(t, depth));
    forall i | 0 <= i < |Leaves(t, depth)|
      ensures IsClosedSubpath(Sierpinski(t, depth)[4 * i .. 4 * i + 4])
    {
      OutlineClosed(Leaves(t, depth)[i], t.a);
    }
  }

  /** The two edge vectors a -> b and b -> c, which fix a triangle's shape and size. */
  function Edges(t: Triangle): (Point, Point) {
    (Sub(t.b, t.a), Sub(t.c, t.b))
  }

  /**
   The corners, in order, keep the parent's first, second and third vertex,
   and each is the parent halved: both edge vectors are scaled by 1/2. The
   kept vertex and the two edge vectors fix each corner triangle.
   */
  lemma CornersHalve(t: Triangle)
    ensures var (t1, t2, t3) := Corners(t);
            var half := (Scale(Edges(t).0, 0.5), Scale(Edges(t).1, 0.5));
            && t1.a == t.a && t2.b == t.b && t3.c == t.c
            && Edges(t1) == half && Edges(t2) == half && Edges(t3) == half
  {
  }

  /** Every triangle in `ts` has edge vectors u and v. */
  predicate AllShaped(ts: seq<Triangle>, u: Point, v: Point)
    decreases |ts|
  {
    |ts| == 0 || (Edges(ts[0]) == (u, v) && AllShaped(ts[1..], u, v))
  }

  /** `AllShaped` says of every position that its triangle has edge vectors u and v. */
  lemma {:induction false} AllShapedIndex(ts: seq<Triangle>, u: Point, v: Point)
    ensures AllShaped(ts, u, v) <==> forall i :: 0 <= i < |ts| ==> Edges(ts[i]) == (u, v)
    decreases |ts|
  {
    if |ts| > 0 {
      AllShapedIndex(ts[1..], u, v);
      if forall i :: 0 <= i < |ts| ==> Edges(ts[i]) == (u, v) {
        forall i | 0 <= i < |ts[1..]| ensures Edges(ts[1..][i]) == (u, v) {
          assert ts[1..][i] == ts[i + 1];
        }
      }
      if AllShaped(ts, u, v) {
        forall i | 0 <= i < |ts| ensures Edges(ts[i]) == (u, v) {
          if i > 0 { assert ts[i] == ts[1..][i - 1]; }
        }
      }
    }
  }

  /** A concatenation is all of one shape exactly when both parts are. */
  lemma {:induction false} AllShapedAppend(a: seq<Triangle>, b: seq<Triangle>, u: Point, v: Point)
    ensures AllShaped(a + b, u, v) <==> AllShaped(a, u, v) && AllShaped(b, u, v)
    decreases |a|
  {
    if |a| == 0 {
      assert a + b == b;
    } else {
      assert (a + b)[0] == a[0];
      assert (a + b)[1..] == a[1..] + b;
      AllShapedAppend(a[1..], b, u, v);
    }
  }

  /**
   Every leaf is the base triangle halved depth times, without rotation: its
   edge vectors are the base's edge vectors halved depth times.
   */
  lemma {:induction false} LeavesHalved(t: Triangle, depth: nat)
    ensures AllShaped(Leaves(t, depth), Halved(Edges(t).0, depth), Halved(Edges(t).1, depth))
    decreases depth
  {
    if depth == 0 {
      assert Leaves(t, 0)[1..] == [];
    } else {
      var (t1, t2, t3) := Corners(t);
      var d: nat := depth - 1;
      var u, v := Edges(t).0, Edges(t).1;
      CornersHalve(t);
      LeavesHalved(t1, d);
      LeavesHalved(t2, d);
      LeavesHalved(t3, d);
      HalvedShift(u, d);
      HalvedShift(v, d);
      var hu, hv := Halved(u, depth), Halved(v, depth);
      AllShapedAppend(Leaves(t1, d), Leaves(t2, d), hu, hv);
      AllShapedAppend(Leaves(t1, d) + Leaves(t2, d), Leaves(t3, d), hu, hv);
    }
  }

  /**
   Leaf i of the figure has edges a -> b and b -> c equal to the base's
   p1 -> p2 and p2 -> p3 divided by 2^depth.
   */
  lemma {:induction false} LeafScale(t: Triangle, depth: nat)
    ensures forall i :: 0 <= i < |Leaves(t, depth)| ==>
              && Sub(Leaves(t, depth)[i].b, Leaves(t, depth)[i].a) == Scale(Sub(t.b, t.a), Shrink(depth))
              && Sub(Leaves(t, depth)[i].c, Leaves(t, depth)[i].b) == Scale(Sub(t.c, t.b), Shrink(depth))
  {
    var u, v := Edges(t).0, Edges(t).1;
    LeavesHalved(t, depth);
    AllShapedIndex(Leaves(t, depth), Halved(u, depth), Halved(v, depth));
    HalvedIsShrink(u, depth);
    HalvedIsShrink(v, depth);
  }

  /** The script's `drawSierpinski` path (script.js:117-118): the figure over the base triangle. */
  function SierpinskiPath(p1: Point, p2: Point, p3: Point, level: nat): (r: seq<Cmd>)
    ensures |r| == 4 * Pow(3, level)
  {
    Sierpinski(Triangle(p1, p2, p3), level)
  }

  /**
   The triangle path is 3^level closed triangles: block i of four commands
   outlines leaf i, whose edges a -> b and b -> c are the base's p1 -> p2 and
   p2 -> p3 divided by 2^level.
   */
  lemma {:induction false} SierpinskiPathTriangles(p1: Point, p2: Point, p3: Point, level: nat)
    ensures forall i :: 0 <= i < Pow(3, level) ==>
              && SierpinskiPath(p1, p2, p3, level)[4 * i .. 4 * i + 4] == Outline(Leaves(Triangle(p1, p2, p3), level)[i])
              && IsClosedSubpath(SierpinskiPath(p1, p2, p3, level)[4 * i .. 4 * i + 4])
              && Sub(Leaves(Triangle(p1, p2, p3), level)[i].b, Leaves(Triangle(p1, p2, p3), level)[i].a) == Scale(Sub(p2, p1), Shrink(level))
              && Sub(Leaves(Triangle(p1, p2, p3), level)[i].c, Leaves(Triangle(p1, p2, p3), level)[i].b) == Scale(Sub(p3, p2), Shrink(level))
  {
    SierpinskiTriangles(Triangle(p1, p2, p3), level);
    LeafScale(Triangle(p1, p2, p3), level);
  }
}
